=== FILE: README.md ===
# Blog and feed views of an online judge, modelled in Dafny

This project models the selection and permission logic of the judge's blog
and feed pages (`judge/views/blog.py`): which blog posts the home feed
lists for a viewer and in what order, how many visible comments each post
on a page has, which tickets the ticket feed shows (the viewer's own open
tickets by default, and, when a caller asks for all tickets, the open
tickets the site's visibility rule lets a staff viewer see), who is offered
the edit link on a post and for which organizations, how a single post is
refused as "not found", and how the sidebar splits contests into running
and upcoming and picks the top ten profiles.

Database rows are plain immutable records (`Models`); a query result is a
sequence, an ORM `.filter()` is `Collections.Filter` (order-preserving
selection) and an `order_by` is `Ordering.SortDesc` on a two-column key.
The current time, the active organization of the request and the viewer are
parameters. Collaborators whose code is elsewhere are parameters too:
`BlogPost.can_see` is `canSee`, `filter_visible_tickets` is
`visibleTickets`, the result of `Contest.get_visible_contests` is the
`candidates` sequence, and the ranking column (rating or performance
points) is `score`.

Modules: `Options` (optional values), `Collections` (filter, duplicates,
take), `Ordering` (sort keys and insertion sort), `Decimal` (`"%d"` and
`int()` on digit strings), `Models` (records), `PostList`, `TicketFeed`,
`PostView`, `FeedView` (one per view class).

Inside an organization context the list query also requires the post to
be attached to that organization. Because the privacy condition and the
organization-context condition sit in one `.filter()` call on the same
many-to-many relation, they apply to the same joined organization row; so
inside an organization context a private post is listed only if the viewer
belongs to that very organization, not merely to one of the post's other
organizations (`PostList.RowMatches`, `PostList.OrgClauseCases`).
Each post appears at most once in the model; SQL join duplication is not modelled.

## Model

| member | source | states |
|---|---|---|
| PostList.ListPosts | judge/views/blog.py:110-122 | a post is listed iff it is in the table, visible, published at or before now and passes the organization clause; every listed post is visible and published; sticky posts come before non-sticky ones and, within the same stickiness, newer before older; no post is listed twice when the table's rows are distinct |
| PostList.StickyThenNewest | judge/views/blog.py:113 | ordering by the key (sticky, publish time) descending means sticky-first, then newest-first |
| PostList.OrgClauseCases | judge/views/blog.py:116-121 | the per-row join condition is equivalent to: with no organization context, public or the signed-in viewer shares an organization with the post; with an active organization, the post is attached to it and is public or the viewer belongs to it |
| PostList.PublicPostListed | judge/views/blog.py:116 | a public, visible, published post is listed for every viewer, anonymous included, outside an organization context |
| PostList.PrivatePostNeedsMembership | judge/views/blog.py:116-118 | a listed org-private post implies a signed-in viewer who belongs to one of the post's organizations |
| PostList.ActiveOrgOnlyItsPosts | judge/views/blog.py:119-121 | inside an organization context every listed post is attached to that organization |
| PostList.PrivatePostScenario | judge/views/blog.py:116-121 | a private post of organization A is not listed for an anonymous viewer and is listed for a signed-in member of A |
| PostList.DecodePageKeyRoundTrip | judge/views/blog.py:132-135 | `int(page[2:])` applied to `"b:%d" % id` returns `id` |
| PostList.PageKeyInjective | judge/views/blog.py:145-146 | distinct post ids give distinct comment page keys |
| PostList.GroupCounts | judge/views/blog.py:134-139 | the grouped count has a group for exactly the requested pages with at least one non-hidden comment, and each group's count is the number of non-hidden comments on that page |
| PostList.DecodeKeys | judge/views/blog.py:132-133 | decoding the page keys of the groups gives a map whose keys are exactly the ids whose page key was grouped, with the same counts |
| PostList.PostCommentCounts | judge/views/blog.py:132-140 | the comment-count map has an entry exactly for the posts on the page that have non-hidden comments, keyed by post id, each equal to that post's number of non-hidden comments; no id from outside the page appears |
| TicketFeed.OwnFeed | judge/views/blog.py:156-167 | empty for an anonymous viewer; otherwise exactly the open tickets the viewer opened or is assigned to, in descending id order (strictly, when ids are unique) |
| TicketFeed.OpenByIdDesc | judge/views/blog.py:171-176 | exactly the open tickets, in descending id order |
| TicketFeed.IdsDescending | judge/views/blog.py:162 | ordering by the key (id) descending gives non-increasing ids, strictly decreasing when the ticket ids are unique |
| TicketFeed.TicketQueryset | judge/views/blog.py:154-179 | the own feed is empty for an anonymous viewer and holds exactly the viewer's open tickets otherwise, in descending id order; the all feed is empty for a non-staff viewer and for staff is the visibility rule applied to the open tickets by descending id |
| PostView.EditContext | judge/views/blog.py:226-239 | the edit flag holds iff the viewer is an author or an admin of at least one of the post's organizations; the editable-organization list is empty without the flag and otherwise is the post's organizations, in order, that the viewer belongs to, so every entry is both a post organization and a viewer organization |
| PostView.ShowEditFlag | judge/views/blog.py:226-234 | the flag computed by the author check and the loop over the post's organizations holds iff the viewer is an author or an admin of at least one of them |
| PostView.EditableOrgs | judge/views/blog.py:236-239 | the loop over the post's organizations collects exactly the order-preserving selection of those the viewer belongs to |
| PostView.MemberOrgsMembers | judge/views/blog.py:238 | an organization is editable iff it is attached to the post and the viewer belongs to it, so the list is a subset of both |
| PostView.MemberOrgsKeepOrder | judge/views/blog.py:237-239 | the editable-organization selection distributes over concatenation, i.e. it keeps the post's order of organizations |
| PostView.FindPost | judge/views/blog.py:244 | a found post is in the table with the requested key; no post is found only when none has that key |
| PostView.GetPost | judge/views/blog.py:243-247 | a returned post has the requested key and passes the visibility rule; with unique keys, nothing is returned exactly when no post with that key is visible to the viewer |
| FeedView.VisibleContests | judge/views/blog.py:74-82 | exactly the visible candidate contests (and, in an organization context, the organization-private ones of that organization), earliest start first; no contest more often than among the candidates, so none twice when the candidates are distinct |
| FeedView.StartKeyOrder | judge/views/blog.py:77 | ordering by negated start time descending is exactly ascending start time |
| FeedView.CurrentContests | judge/views/blog.py:84-86 | exactly the shown contests with start at or before now and end after now, keeping ascending start order; a sub-multiset of the shown contests, so none twice when they are distinct |
| FeedView.FutureContests | judge/views/blog.py:87 | exactly the shown contests starting after now, keeping ascending start order; a sub-multiset of the shown contests, so none twice when they are distinct |
| FeedView.ContestSplit | judge/views/blog.py:84-87 | no contest is both current and future, both lists are ordered by start, and a shown contest in neither has already ended |
| FeedView.TopProfiles | judge/views/blog.py:92-100 | at most ten profiles, each listed and (in an organization context) a member of it, best score first; any eligible profile left out means ten were shown, all scoring at least as high; a sub-multiset of the profiles, so no profile twice when the profiles are distinct |
| FeedView.RankedProfiles | judge/views/blog.py:92-98 | exactly the listed profiles (members of the active organization, if any), ordered by score highest first, with no profile more often than in the input |
| FeedView.TopOfRanking | judge/views/blog.py:95-100 | the first ten of the ranking are best first and each scores at least as high as every ranked profile left out, which happens only when ten are shown |
| FeedView.TakeOfSorted | judge/views/blog.py:95-100 | the first ten of a descending sequence are ahead of every element left out |
| Decimal.ParseFormat | judge/views/blog.py:133-135 | parsing the decimal numeral `"%d" % n` gives back `n` |
| Decimal.FormatInjective | judge/views/blog.py:135 | distinct numbers format to distinct numerals |

## Left out

- Pagination (`DiggPaginator`, `paginate_by`, page numbers): the comment counts take the current page's posts as a parameter.
- Lazy sitewide counts (users, public problems, submissions, languages), the page-title cache and the contest clarifications with `has_clarifications` / `can_edit_contest`: database counts and caches with no selection logic of their own.
- `CommentFeed.get_queryset`: it only forwards to `Comment.most_recent`, whose code is not part of this model.
- `Contest.get_visible_contests`, `filter_visible_tickets` and `BlogPost.can_see`: code outside this view; they appear only as the parameters `candidates`, `visibleTickets` and `canSee`.
- `recent_organizations` (`OrganizationProfile.get_most_recent_organizations`) and `can_edit_contest` (`Contest.is_editable_by`): single calls into code outside this view with no selection logic of their own, like the lazy counts.
- `prefetch_related` / `select_related` and query laziness: performance mechanics with no effect on the result.
- SQL join duplication: a ticket opened by the viewer with several assignees, or a post matching through several organization rows, would come back once per matching row from the database; the model lists each row once.
- Page titles, translated strings, `reverse` URLs, `og_image`, template context keys, and the pagevote, bookmark and comment mixins: rendering glue.
- Decimal.ParseFormat: `int()` also accepts signs, surrounding whitespace, underscores and non-ASCII digits; only unsigned ASCII numerals are modelled, because every decoded key was produced by `"b:%d"`.
- FeedView.TopProfiles: the ranking column is an integer `score` parameter; a nullable rating and floating-point performance points, and the database's ordering of NULLs and ties, are not modelled.
- Ordering among posts with equal stickiness and publish time (and contests with equal start time) is left to the database; the model fixes one order, and its contracts promise only the ordering the query specifies.

=== FILE: collections.dfy ===
/** Order-preserving selection over sequences: the shape every ORM `.filter()`
    in the views takes once a query result is read as a sequence of rows. */
module Collections {

  /** The elements of `s` that satisfy `p`, in the order they appear in `s`. */
  function Filter<T(!new)>(s: seq<T>, p: T -> bool): (r: seq<T>)
    ensures |r| <= |s|
    ensures forall x :: x in r <==> x in s && p(x)
    ensures multiset(r) <= multiset(s)
    decreases |s|
  {
    if |s| == 0 then []
    else
      var init := Filter(s[..|s| - 1], p);
      var last := s[|s| - 1];
      assert s == s[..|s| - 1] + [last];
      if p(last) then init + [last] else init
  }

  /** One step of a left-to-right scan that keeps the elements satisfying `p`. */
  lemma FilterSnoc<T(!new)>(s: seq<T>, x: T, p: T -> bool)
    ensures Filter(s + [x], p) == Filter(s, p) + (if p(x) then [x] else [])
  {
  }

  /** Filtering distributes over concatenation: what is kept from a prefix
      comes before what is kept from the rest, so the original order survives. */
  lemma {:induction false} FilterAppend<T(!new)>(a: seq<T>, b: seq<T>, p: T -> bool)
    ensures Filter(a + b, p) == Filter(a, p) + Filter(b, p)
    decreases |b|
  {
    if |b| == 0 {
      assert a + b == a;
    } else {
      var b' := b[..|b| - 1];
      var x := b[|b| - 1];
      assert b == b' + [x];
      assert a + b == (a + b') + [x];
      FilterSnoc(a + b', x, p);
      FilterAppend(a, b', p);
      FilterSnoc(b', x, p);
    }
  }

  /** Every position holds a different element: a query result in which each
      row appears once. */
  predicate NoDuplicates<T(==)>(s: seq<T>) {
    forall i, j :: 0 <= i < j < |s| ==> s[i] != s[j]
  }

  lemma {:induction false} DistinctCountAtMostOne<T>(s: seq<T>, x: T)
    requires NoDuplicates(s)
    ensures multiset(s)[x] <= 1
    decreases |s|
  {
    if |s| > 0 {
      var init := s[..|s| - 1];
      var last := s[|s| - 1];
      assert s == init + [last];
      assert NoDuplicates(init);
      DistinctCountAtMostOne(init, x);
      if x == last {
        assert x !in init;
      }
    }
  }

  /** A sub-multiset of a duplicate-free sequence is itself duplicate-free:
      selecting and reordering rows never makes a row appear twice. */
  lemma NoDuplicatesOfSubMultiset<T>(a: seq<T>, b: seq<T>)
    requires multiset(a) <= multiset(b)
    requires NoDuplicates(b)
    ensures NoDuplicates(a)
  {
    forall i, j | 0 <= i < j < |a|
      ensures a[i] != a[j]
    {
      if a[i] == a[j] {
        var x := a[i];
        assert a == a[..j] + a[j..];
        assert x in a[..j];
        assert x in a[j..];
        assert multiset(a)[x] == multiset(a[..j])[x] + multiset(a[j..])[x];
        DistinctCountAtMostOne(b, x);
      }
    }
  }

  /** Rearranging a sequence keeps the same elements. */
  lemma SameElements<T>(a: seq<T>, b: seq<T>)
    requires multiset(a) == multiset(b)
    ensures forall x :: x in a <==> x in b
  {
    forall x
      ensures x in a <==> x in b
    {
      assert x in a <==> x in multiset(a);
      assert x in b <==> x in multiset(b);
    }
  }

  /** The first `n` elements, or all of them when there are fewer: Python's `s[:n]`. */
  function Take<T>(s: seq<T>, n: nat): (r: seq<T>)
    ensures |r| <= n && |r| <= |s|
    ensures |s| >= n ==> |r| == n
    ensures forall i :: 0 <= i < |r| ==> r[i] == s[i]
  {
    if |s| <= n then s else s[..n]
  }

  /** Whatever `Take` keeps comes from the sequence. */
  lemma TakeIn<T>(s: seq<T>, n: nat)
    ensures forall x :: x in Take(s, n) ==> x in s
  {
  }

  /** `Take` keeps a prefix, so it repeats nothing the sequence does not. */
  lemma TakeSubMultiset<T>(s: seq<T>, n: nat)
    ensures multiset(Take(s, n)) <= multiset(s)
  {
    var r := Take(s, n);
    assert s == r + s[|r|..];
  }
}

=== FILE: decimal.dfy ===
/** Decimal text of non-negative integers: Python's `"%d" % n` and the
    digits-only case of `int(text)`. */
module Decimal {

  import opened Options

  predicate IsDigit(c: char) {
    '0' <= c <= '9'
  }

  function DigitChar(d: nat): (c: char)
    requires d < 10
    ensures IsDigit(c) && (c as int) - ('0' as int) == d
  {
    (('0' as int) + d) as char
  }

  function DigitValue(c: char): nat
    requires IsDigit(c)
  {
    (c as int) - ('0' as int)
  }

  /** `"%d" % n`: the shortest decimal numeral of `n`, most significant digit first. */
  function Format(n: nat): (s: string)
    ensures |s| >= 1
    ensures forall i :: 0 <= i < |s| ==> IsDigit(s[i])
    ensures |s| > 1 ==> s[0] != '0'
    decreases n
  {
    if n < 10 then [DigitChar(n)]
    else Format(n / 10) + [DigitChar(n % 10)]
  }

  /** The value of a string of decimal digits. */
  function DigitsValue(s: string): nat
    requires forall i :: 0 <= i < |s| ==> IsDigit(s[i])
    decreases |s|
  {
    if |s| == 0 then 0
    else DigitsValue(s[..|s| - 1]) * 10 + DigitValue(s[|s| - 1])
  }

  /** `int(text)` restricted to unsigned decimal numerals: `None` stands for
      the `ValueError` Python raises, e.g. on the empty string. */
  function Parse(s: string): (r: Option<nat>)
    ensures r.Some? <==> |s| > 0 && forall i :: 0 <= i < |s| ==> IsDigit(s[i])
  {
    if |s| > 0 && forall i :: 0 <= i < |s| ==> IsDigit(s[i]) then Some(DigitsValue(s))
    else None
  }

  /** Parsing what `Format` printed gives the number back. */
  lemma {:induction false} ParseFormat(n: nat)
    ensures Parse(Format(n)) == Some(n)
    decreases n
  {
    var s := Format(n);
    if n >= 10 {
      ParseFormat(n / 10);
      assert s[..|s| - 1] == Format(n / 10);
      assert DigitsValue(s) == DigitsValue(Format(n / 10)) * 10 + n % 10;
    }
  }

  /** Distinct numbers print as distinct numerals. */
  lemma FormatInjective(m: nat, n: nat)
    requires Format(m) == Format(n)
    ensures m == n
  {
    ParseFormat(m);
    ParseFormat(n);
  }
}

=== FILE: feed_view.dfy ===
/** The sidebar every feed page shares: the contests running now and those
    still to come, and the top of the rating and performance rankings. */
module FeedView {

  import opened Options
  import opened Collections
  import opened Ordering
  import opened Models

  /** The organization-context filter on contests: inside an organization
      only that organization's private contests remain. */
  predicate InOrgScope(c: Contest, activeOrg: Option<OrgId>) {
    activeOrg.Some? ==> c.isOrganizationPrivate && activeOrg.value in c.organizations
  }

  predicate ShownContest(c: Contest, activeOrg: Option<OrgId>) {
    c.isVisible && InOrgScope(c, activeOrg)
  }

  /** `order_by("start_time")`: ascending start is descending negated start. */
  function StartKey(c: Contest): Key {
    Key(-c.startTime, 0)
  }

  predicate StartAscending(s: seq<Contest>) {
    forall i, j :: 0 <= i < j < |s| ==> s[i].startTime <= s[j].startTime
  }

  lemma StartKeyOrder(s: seq<Contest>)
    ensures SortedDesc(s, StartKey) <==> StartAscending(s)
  {
  }

  /** The contests the sidebar draws from. `candidates` is what the contest
      model's own visibility rule returns for the viewer (own contests only);
      of those, the visible ones in the organization scope, earliest first. */
  function VisibleContests(candidates: seq<Contest>, activeOrg: Option<OrgId>): (r: seq<Contest>)
    ensures forall c :: c in r <==> c in candidates && ShownContest(c, activeOrg)
    ensures StartAscending(r)
    ensures multiset(r) <= multiset(candidates)
    ensures NoDuplicates(candidates) ==> NoDuplicates(r)
  {
    var shown := Filter(candidates, c => ShownContest(c, activeOrg));
    var r := SortDesc(shown, StartKey);
    SameElements(r, shown);
    StartKeyOrder(r);
    if NoDuplicates(candidates) then
      NoDuplicatesOfSubMultiset(r, candidates);
      r
    else r
  }

  predicate Running(c: Contest, now: int) {
    c.startTime <= now < c.endTime
  }

  predicate Upcoming(c: Contest, now: int) {
    c.startTime > now
  }

  /** `current_contests`: started at or before `now` and ending after it. */
  function CurrentContests(visible: seq<Contest>, now: int): (r: seq<Contest>)
    ensures forall c :: c in r <==> c in visible && Running(c, now)
    ensures StartAscending(visible) ==> StartAscending(r)
    ensures multiset(r) <= multiset(visible)
    ensures NoDuplicates(visible) ==> NoDuplicates(r)
  {
    var r := Filter(visible, c => Running(c, now));
    assert NoDuplicates(visible) ==> NoDuplicates(r) by {
      if NoDuplicates(visible) {
        NoDuplicatesOfSubMultiset(r, visible);
      }
    }
    if StartAscending(visible) then
      StartKeyOrder(visible);
      FilterKeepsOrder(visible, c => Running(c, now), StartKey);
      StartKeyOrder(r);
      r
    else r
  }

  /** `future_contests`: starting strictly after `now`. */
  function FutureContests(visible: seq<Contest>, now: int): (r: seq<Contest>)
    ensures forall c :: c in r <==> c in visible && Upcoming(c, now)
    ensures StartAscending(visible) ==> StartAscending(r)
    ensures multiset(r) <= multiset(visible)
    ensures NoDuplicates(visible) ==> NoDuplicates(r)
  {
    var r := Filter(visible, c => Upcoming(c, now));
    assert NoDuplicates(visible) ==> NoDuplicates(r) by {
      if NoDuplicates(visible) {
        NoDuplicatesOfSubMultiset(r, visible);
      }
    }
    if StartAscending(visible) then
      StartKeyOrder(visible);
      FilterKeepsOrder(visible, c => Upcoming(c, now), StartKey);
      StartKeyOrder(r);
      r
    else r
  }

  /** The two lists split the shown contests: none is in both, and a shown
      contest in neither has already ended. */
  lemma ContestSplit(candidates: seq<Contest>, activeOrg: Option<OrgId>, now: int)
    ensures var visible := VisibleContests(candidates, activeOrg);
      var current := CurrentContests(visible, now);
      var future := FutureContests(visible, now);
      && (forall c :: !(c in current && c in future))
      && (forall c :: c in visible && c !in current && c !in future ==> c.endTime <= now)
      && StartAscending(current) && StartAscending(future)
  {
  }

  /** A profile eligible for the rankings: listed, and a member of the
      active organization when there is one. */
  predicate Ranked(p: Profile, activeOrg: Option<OrgId>) {
    !p.isUnlisted && (activeOrg.Some? ==> activeOrg.value in p.organizations)
  }

  /** The ranking length of `top_rated` and `top_scorer`. */
  const TopCount := 10

  /** Ranking by `score`, highest first, as a sort key. */
  function ScoreKey(score: Profile -> int): Profile -> Key {
    (p: Profile) => Key(score(p), 0)
  }

  /** The eligible profiles ordered by `score`, highest first: the query
      before its slice. */
  function RankedProfiles(profiles: seq<Profile>, activeOrg: Option<OrgId>, score: Profile -> int): (r: seq<Profile>)
    ensures forall p :: p in r <==> p in profiles && Ranked(p, activeOrg)
    ensures SortedDesc(r, ScoreKey(score))
    ensures multiset(r) <= multiset(profiles)
    ensures NoDuplicates(profiles) ==> NoDuplicates(r)
  {
    var ranked := Filter(profiles, p => Ranked(p, activeOrg));
    var r := SortDesc(ranked, ScoreKey(score));
    SameElements(r, ranked);
    if NoDuplicates(profiles) then
      NoDuplicatesOfSubMultiset(r, profiles);
      r
    else r
  }

  /** `top_rated` / `top_scorer`: the ten eligible profiles with the highest
      `score` (rating or performance points), best first. */
  function TopProfiles(profiles: seq<Profile>, activeOrg: Option<OrgId>, score: Profile -> int): (r: seq<Profile>)
    ensures |r| <= TopCount
    ensures forall p :: p in r ==> p in profiles && Ranked(p, activeOrg)
    ensures forall i, j :: 0 <= i < j < |r| ==> score(r[i]) >= score(r[j])
    ensures forall p :: p in profiles && Ranked(p, activeOrg) && p !in r ==>
      |r| == TopCount && forall q :: q in r ==> score(q) >= score(p)
    ensures multiset(r) <= multiset(profiles)
    ensures NoDuplicates(profiles) ==> NoDuplicates(r)
  {
    var sorted := RankedProfiles(profiles, activeOrg, score);
    var r := Take(sorted, TopCount);
    TopOfRanking(sorted, r, score);
    TakeIn(sorted, TopCount);
    TakeSubMultiset(sorted, TopCount);
    if NoDuplicates(profiles) then
      NoDuplicatesOfSubMultiset(r, profiles);
      r
    else r
  }

  /** The ranking order read in scores: the shown profiles are best first
      and score at least as high as every ranked profile left out. */
  lemma TopOfRanking(sorted: seq<Profile>, r: seq<Profile>, score: Profile -> int)
    requires SortedDesc(sorted, ScoreKey(score))
    requires r == Take(sorted, TopCount)
    ensures forall i, j :: 0 <= i < j < |r| ==> score(r[i]) >= score(r[j])
    ensures forall p :: p in sorted && p !in r ==>
      |r| == TopCount && forall q :: q in r ==> score(q) >= score(p)
  {
    var key := ScoreKey(score);
    TakeOfSorted(sorted, r, key);
    forall i, j | 0 <= i < j < |r|
      ensures score(r[i]) >= score(r[j])
    {
      assert Above(key(r[i]), key(r[j]));
    }
    forall p, q | p in sorted && p !in r && q in r
      ensures score(q) >= score(p)
    {
      assert Above(key(q), key(p));
    }
  }

  /** The first `TopCount` of a sequence sorted by descending key are ahead
      of everything left out. */
  lemma TakeOfSorted<T>(sorted: seq<T>, r: seq<T>, key: T -> Key)
    requires SortedDesc(sorted, key)
    requires r == Take(sorted, TopCount)
    ensures forall i, j :: 0 <= i < j < |r| ==> Above(key(r[i]), key(r[j]))
    ensures forall x :: x in sorted && x !in r ==>
      |r| == TopCount && forall y :: y in r ==> Above(key(y), key(x))
  {
  }
}

=== FILE: models.dfy ===
/** The records the blog and feed views read. Each is the part of a database
    row the views look at; identities are the rows' primary keys. */
module Models {

  type ProfileId = nat
  type OrgId = nat

  /** A user's profile: its key, the organizations it belongs to, and whether
      it is hidden from public rankings. */
  datatype Profile = Profile(id: ProfileId, organizations: set<OrgId>, isUnlisted: bool)

  /** Who is making the request: nobody signed in, or a signed-in user with
      a profile and the site's staff flag. */
  datatype Viewer = Anonymous | Member(profile: Profile, isStaff: bool) {

    /** Django's `user.is_staff`, which is false for an anonymous user. */
    predicate IsStaff() {
      Member? && isStaff
    }
  }

  /** An organization, with the profiles that administer it. */
  datatype Organization = Organization(id: OrgId, admins: set<ProfileId>)

  /** A blog post. `organizations` is the post's organization relation in the
      order the database returns it; `publishOn` is a timestamp. */
  datatype BlogPost = BlogPost(
    id: nat,
    visible: bool,
    publishOn: int,
    sticky: bool,
    authors: set<ProfileId>,
    organizations: seq<Organization>,
    isOrganizationPrivate: bool)

  /** A support ticket: the profile that opened it (`user` in the schema), the
      profiles assigned to it, and whether it is still open. */
  datatype Ticket = Ticket(id: nat, owner: ProfileId, assignees: set<ProfileId>, isOpen: bool)

  /** A comment, filed under a page key such as "b:12" for blog post 12. */
  datatype Comment = Comment(page: string, hidden: bool)

  /** A contest with its time window and organization scoping. */
  datatype Contest = Contest(
    id: nat,
    startTime: int,
    endTime: int,
    isVisible: bool,
    isOrganizationPrivate: bool,
    organizations: set<OrgId>)
}

=== FILE: options.dfy ===
/** The optional value used wherever the views answer "nothing": a request
    context with no active organization, a page key Python's `int` rejects,
    a post that is not found. */
module Options {

  datatype Option<+T> = None | Some(value: T)
}

=== FILE: ordering.dfy ===
/** Ordering of query results. An ORM `order_by("-a", "-b")` sorts rows by the
    pair (a, b), largest first; `Key` is that pair and `SortDesc` is the sort. */
module Ordering {

  import opened Collections

  /** A two-column sort key, compared lexicographically. */
  datatype Key = Key(major: int, minor: int)

  /** `a` may come before `b` in a descending order on keys. */
  predicate Above(a: Key, b: Key) {
    a.major > b.major || (a.major == b.major && a.minor >= b.minor)
  }

  /** `s` is ordered by `key`, largest first. */
  predicate SortedDesc<T>(s: seq<T>, key: T -> Key) {
    forall i, j :: 0 <= i < j < |s| ==> Above(key(s[i]), key(s[j]))
  }

  /** Places `x` into a sequence already ordered by `key`. */
  function Insert<T>(x: T, s: seq<T>, key: T -> Key): (r: seq<T>)
    requires SortedDesc(s, key)
    ensures SortedDesc(r, key)
    ensures multiset(r) == multiset(s) + multiset{x}
    decreases |s|
  {
    if |s| == 0 then [x]
    else if Above(key(x), key(s[0])) then
      assert forall j :: 0 <= j < |s| ==> Above(key(s[0]), key(s[j]));
      [x] + s
    else
      var rest := Insert(x, s[1..], key);
      assert s == [s[0]] + s[1..];
      HeadAboveAll(s[0], s[1..], x, rest, key);
      [s[0]] + rest
  }

  /** A head that is above every element of `tail` and above `x` is above
      every element of any rearrangement of `tail` with `x` added. */
  lemma HeadAboveAll<T>(h: T, tail: seq<T>, x: T, rest: seq<T>, key: T -> Key)
    requires SortedDesc([h] + tail, key)
    requires !Above(key(x), key(h))
    requires SortedDesc(rest, key)
    requires multiset(rest) == multiset(tail) + multiset{x}
    ensures SortedDesc([h] + rest, key)
  {
    var r := [h] + rest;
    forall i, j | 0 <= i < j < |r|
      ensures Above(key(r[i]), key(r[j]))
    {
      if i > 0 {
        assert r[i] == rest[i - 1] && r[j] == rest[j - 1];
      } else {
        var y := rest[j - 1];
        assert r[i] == h && r[j] == y;
        assert y in multiset(rest);
        if y != x {
          assert y in multiset(tail);
          var k :| 0 <= k < |tail| && tail[k] == y;
          assert ([h] + tail)[0] == h && ([h] + tail)[k + 1] == y;
        }
      }
    }
  }

  /** `s` rearranged into descending order of `key` (insertion sort, stable). */
  function SortDesc<T>(s: seq<T>, key: T -> Key): (r: seq<T>)
    ensures SortedDesc(r, key)
    ensures multiset(r) == multiset(s)
    ensures |r| == |s|
    decreases |s|
  {
    if |s| == 0 then []
    else
      assert s == [s[0]] + s[1..];
      Insert(s[0], SortDesc(s[1..], key), key)
  }

  /** Selecting rows from an ordered result keeps it ordered. */
  lemma {:induction false} FilterKeepsOrder<T(!new)>(s: seq<T>, p: T -> bool, key: T -> Key)
    requires SortedDesc(s, key)
    ensures SortedDesc(Filter(s, p), key)
    decreases |s|
  {
    if |s| > 0 {
      var init := s[..|s| - 1];
      var last := s[|s| - 1];
      assert s == init + [last];
      FilterSnoc(init, last, p);
      FilterKeepsOrder(init, p, key);
      var fi := Filter(init, p);
      if p(last) {
        forall x | x in fi
          ensures Above(key(x), key(last))
        {
          var k :| 0 <= k < |init| && init[k] == x;
          assert s[k] == x && s[|s| - 1] == last;
        }
        var r := fi + [last];
        forall i, j | 0 <= i < j < |r|
          ensures Above(key(r[i]), key(r[j]))
        {
          assert r[i] == fi[i];
          if j < |r| - 1 {
            assert r[j] == fi[j];
          } else {
            assert fi[i] in fi && r[j] == last;
          }
        }
      }
    }
  }
}

=== FILE: post_list.dfy ===
/** The blog post list of the home feed: which posts are listed for a viewer,
    in what order, and how many visible comments each post on a page has. */
module PostList {

  import opened Options
  import opened Collections
  import opened Ordering
  import opened Models
  import opened Decimal

  /** The keys of the organizations attached to `p`. */
  function OrgIds(p: BlogPost): set<OrgId> {
    set o | o in p.organizations :: o.id
  }

  /** The rows the join on the post's organization relation produces: one per
      attached organization, or a single NULL row (`None`) when there is none. */
  function JoinRows(p: BlogPost): set<Option<OrgId>> {
    if |p.organizations| == 0 then {None}
    else set o | o in p.organizations :: Some(o.id)
  }

  /** The privacy condition of the list query evaluated on one joined row.
      All its parts sit in a single `.filter()` call, so they are evaluated
      against the same organization row: the post is public, or the row's
      organization is one of the signed-in viewer's; and, when an
      organization context is active, the row's organization is that one. */
  predicate RowMatches(p: BlogPost, row: Option<OrgId>, v: Viewer, activeOrg: Option<OrgId>) {
    && (!p.isOrganizationPrivate
        || (v.Member? && row.Some? && row.value in v.profile.organizations))
    && (activeOrg.Some? ==> row == activeOrg)
  }

  /** The post survives the privacy filter: some joined row matches. */
  predicate PassesOrgClause(p: BlogPost, v: Viewer, activeOrg: Option<OrgId>) {
    exists row :: row in JoinRows(p) && RowMatches(p, row, v, activeOrg)
  }

  /** Marked visible and already published at time `now`. */
  predicate Published(p: BlogPost, now: int) {
    p.visible && p.publishOn <= now
  }

  predicate Listed(p: BlogPost, v: Viewer, activeOrg: Option<OrgId>, now: int) {
    Published(p, now) && PassesOrgClause(p, v, activeOrg)
  }

  /** `order_by("-sticky", "-publish_on")`. */
  function PostKey(p: BlogPost): Key {
    Key(if p.sticky then 1 else 0, p.publishOn)
  }

  /** The post list query: the posts a viewer may see in the list, sticky
      posts first and newest first within each group. */
  function ListPosts(posts: seq<BlogPost>, v: Viewer, activeOrg: Option<OrgId>, now: int): (r: seq<BlogPost>)
    ensures forall p :: p in r <==> p in posts && Listed(p, v, activeOrg, now)
    ensures forall p :: p in r ==> p.visible && p.publishOn <= now
    ensures forall i, j :: 0 <= i < j < |r| ==>
      && (r[i].sticky || !r[j].sticky)
      && (r[i].sticky == r[j].sticky ==> r[i].publishOn >= r[j].publishOn)
    ensures NoDuplicates(posts) ==> NoDuplicates(r)
  {
    var listed := Filter(posts, p => Listed(p, v, activeOrg, now));
    var r := SortDesc(listed, PostKey);
    SameElements(r, listed);
    StickyThenNewest(r);
    if NoDuplicates(posts) then
      NoDuplicatesOfSubMultiset(listed, posts);
      NoDuplicatesOfSubMultiset(r, listed);
      r
    else r
  }

  /** Descending `PostKey` order is sticky-first, then newest-first. */
  lemma StickyThenNewest(r: seq<BlogPost>)
    requires SortedDesc(r, PostKey)
    ensures forall i, j :: 0 <= i < j < |r| ==>
      && (r[i].sticky || !r[j].sticky)
      && (r[i].sticky == r[j].sticky ==> r[i].publishOn >= r[j].publishOn)
  {
  }

  lemma JoinRowsMembers(p: BlogPost)
    ensures forall row :: row in JoinRows(p) <==>
      (row.None? && |p.organizations| == 0) || (row.Some? && row.value in OrgIds(p))
  {
  }

  /** The privacy clause read per case. Without an organization context a
      public post passes, and a private one passes exactly when the viewer is
      signed in and shares an organization with it. With an active
      organization the post must be attached to it, and if private the
      viewer must belong to that very organization. */
  lemma OrgClauseCases(p: BlogPost, v: Viewer, activeOrg: Option<OrgId>)
    ensures activeOrg.None? ==>
      (PassesOrgClause(p, v, activeOrg) <==>
        !p.isOrganizationPrivate
        || (v.Member? && exists o :: o in OrgIds(p) && o in v.profile.organizations))
    ensures activeOrg.Some? ==>
      (PassesOrgClause(p, v, activeOrg) <==>
        && activeOrg.value in OrgIds(p)
        && (!p.isOrganizationPrivate || (v.Member? && activeOrg.value in v.profile.organizations)))
  {
    JoinRowsMembers(p);
    if !p.isOrganizationPrivate && activeOrg.None? {
      if |p.organizations| == 0 {
        assert RowMatches(p, None, v, activeOrg);
      } else {
        assert p.organizations[0].id in OrgIds(p);
        assert RowMatches(p, Some(p.organizations[0].id), v, activeOrg);
      }
    }
    if v.Member? && exists o :: o in OrgIds(p) && o in v.profile.organizations {
      var o :| o in OrgIds(p) && o in v.profile.organizations;
      assert activeOrg.None? ==> RowMatches(p, Some(o), v, activeOrg);
    }
    if activeOrg.Some? && activeOrg.value in OrgIds(p) {
      assert RowMatches(p, activeOrg, v, activeOrg)
        <==> !p.isOrganizationPrivate || (v.Member? && activeOrg.value in v.profile.organizations);
    }
  }

  /** A public post that is visible and published is listed for every
      viewer when no organization context is active. */
  lemma PublicPostListed(p: BlogPost, v: Viewer, now: int)
    requires !p.isOrganizationPrivate && Published(p, now)
    ensures Listed(p, v, None, now)
  {
    OrgClauseCases(p, v, None);
  }

  /** A listed private post is seen only by a signed-in member of one of its
      organizations. */
  lemma PrivatePostNeedsMembership(p: BlogPost, v: Viewer, activeOrg: Option<OrgId>, now: int)
    requires p.isOrganizationPrivate && Listed(p, v, activeOrg, now)
    ensures v.Member?
    ensures exists o :: o in OrgIds(p) && o in v.profile.organizations
  {
  }

  /** Inside an organization context only that organization's posts are listed. */
  lemma ActiveOrgOnlyItsPosts(p: BlogPost, v: Viewer, a: OrgId, now: int)
    requires Listed(p, v, Some(a), now)
    ensures a in OrgIds(p)
  {
  }

  /** A private post of organization `a` is hidden from an anonymous viewer
      and shown once the viewer is a member of `a`. */
  lemma PrivatePostScenario(p: BlogPost, member: Profile, a: OrgId, now: int)
    requires p.isOrganizationPrivate && Published(p, now)
    requires a in OrgIds(p)
    requires a in member.organizations
    ensures !Listed(p, Anonymous, None, now)
    ensures Listed(p, Member(member, false), None, now)
  {
    OrgClauseCases(p, Anonymous, None);
    OrgClauseCases(p, Member(member, false), None);
  }

  /** The comment page of a post: `"b:%d" % post.id`. */
  function PageKey(id: nat): string {
    "b:" + Format(id)
  }

  /** `int(page[2:])`: the post id read back from a page key; `None` where
      Python would raise, and also on the signed, spaced or underscored
      numerals Python accepts but this model leaves out. Slicing a string
      shorter than two characters gives the empty string. */
  function DecodePageKey(page: string): Option<nat> {
    Parse(if |page| >= 2 then page[2..] else "")
  }

  /** Reading a post's page key back gives the post's id. */
  lemma DecodePageKeyRoundTrip(id: nat)
    ensures DecodePageKey(PageKey(id)) == Some(id)
  {
    assert PageKey(id)[2..] == Format(id);
    ParseFormat(id);
  }

  /** Distinct posts have distinct comment pages. */
  lemma PageKeyInjective(m: nat, n: nat)
    requires PageKey(m) == PageKey(n)
    ensures m == n
  {
    DecodePageKeyRoundTrip(m);
    DecodePageKeyRoundTrip(n);
  }

  /** The number of comments in `comments` filed under `page` and not hidden. */
  function CountOn(comments: seq<Comment>, page: string): nat
    decreases |comments|
  {
    if |comments| == 0 then 0
    else
      var c := comments[|comments| - 1];
      CountOn(comments[..|comments| - 1], page) + (if c.page == page && !c.hidden then 1 else 0)
  }

  /** The aggregate query: non-hidden comments whose page is in `pages`,
      grouped by page and counted. Only pages with at least one such comment
      form a group. */
  method GroupCounts(comments: seq<Comment>, pages: set<string>) returns (groups: map<string, nat>)
    ensures forall page :: page in groups <==> page in pages && CountOn(comments, page) > 0
    ensures forall page :: page in groups ==> groups[page] == CountOn(comments, page)
  {
    groups := map[];
    var i := 0;
    while i < |comments|
      invariant 0 <= i <= |comments|
      invariant forall page :: page in groups <==> page in pages && CountOn(comments[..i], page) > 0
      invariant forall page :: page in groups ==> groups[page] == CountOn(comments[..i], page)
    {
      var c := comments[i];
      assert comments[..i + 1][..i] == comments[..i];
      if !c.hidden && c.page in pages {
        var n := if c.page in groups then groups[c.page] else 0;
        groups := groups[c.page := n + 1];
      }
      i := i + 1;
    }
    assert comments[..|comments|] == comments;
  }

  /** `page` is the comment page of some post. */
  predicate IsPostPage(page: string) {
    DecodePageKey(page).Some? && PageKey(DecodePageKey(page).value) == page
  }

  /** The dictionary comprehension `{int(page[2:]): count ...}` over the
      grouped counts: each post page is replaced by the id it encodes. */
  function DecodeKeys(groups: map<string, nat>): (counts: map<nat, nat>)
    requires forall page :: page in groups ==> IsPostPage(page)
    ensures forall id :: id in counts <==> PageKey(id) in groups
    ensures forall id :: id in counts ==> counts[id] == groups[PageKey(id)]
  {
    var counts := map page | page in groups && IsPostPage(page) :: DecodePageKey(page).value := groups[page];
    forall id
      ensures id in counts <==> PageKey(id) in groups
    {
      DecodePageKeyRoundTrip(id);
    }
    counts
  }

  /** `post_comment_counts`: for each post on the current page that has
      non-hidden comments, the post's id mapped to their number. No other id
      appears. */
  method PostCommentCounts(pagePosts: seq<BlogPost>, comments: seq<Comment>) returns (counts: map<nat, nat>)
    ensures forall id :: id in counts <==>
      (exists p :: p in pagePosts && p.id == id) && CountOn(comments, PageKey(id)) > 0
    ensures forall id :: id in counts ==> counts[id] == CountOn(comments, PageKey(id))
  {
    var pages := set p | p in pagePosts :: PageKey(p.id);
    var groups := GroupCounts(comments, pages);
    forall page | page in groups
      ensures IsPostPage(page)
    {
      var p :| p in pagePosts && page == PageKey(p.id);
      DecodePageKeyRoundTrip(p.id);
    }
    counts := DecodeKeys(groups);
    forall id
      ensures PageKey(id) in pages <==> exists p :: p in pagePosts && p.id == id
    {
      if PageKey(id) in pages {
        var p :| p in pagePosts && PageKey(id) == PageKey(p.id);
        PageKeyInjective(id, p.id);
      }
    }
  }
}

=== FILE: post_view.dfy ===
/** The page of a single blog post: whether it may be shown at all, and
    whether (and for which organizations) the viewer is offered editing. */
module PostView {

  import opened Options
  import opened Collections
  import opened Models

  /** The viewer wrote the post, or administers one of its organizations. */
  predicate CanEdit(post: BlogPost, v: Viewer) {
    v.Member? &&
    (v.profile.id in post.authors
     || exists i :: 0 <= i < |post.organizations| && v.profile.id in post.organizations[i].admins)
  }

  /** Membership in a set of organizations, as a selection test. */
  function InOrgs(memberships: set<OrgId>): Organization -> bool {
    (o: Organization) => o.id in memberships
  }

  /** The organizations of `orgs`, in order, that the profile belongs to. */
  function MemberOrgs(orgs: seq<Organization>, memberships: set<OrgId>): seq<Organization> {
    Filter(orgs, InOrgs(memberships))
  }

  /** The first loop of the post page: the edit link is shown to an author
      of the post and to an admin of any of its organizations. */
  method ShowEditFlag(post: BlogPost, v: Viewer) returns (showEdit: bool)
    ensures showEdit <==> CanEdit(post, v)
  {
    var orgs := post.organizations;
    showEdit := false;
    if v.Member? && v.profile.id in post.authors {
      showEdit := true;
    }
    var i := 0;
    while i < |orgs|
      invariant 0 <= i <= |orgs|
      invariant showEdit <==>
        v.Member? && (v.profile.id in post.authors || exists k :: 0 <= k < i && v.profile.id in orgs[k].admins)
    {
      if v.Member? && v.profile.id in orgs[i].admins {
        showEdit := true;
      }
      i := i + 1;
    }
  }

  /** The second loop of the post page: the post's organizations, in order,
      that the viewer belongs to. */
  method EditableOrgs(orgs: seq<Organization>, memberships: set<OrgId>) returns (editOrgs: seq<Organization>)
    ensures editOrgs == MemberOrgs(orgs, memberships)
  {
    editOrgs := [];
    var i := 0;
    while i < |orgs|
      invariant 0 <= i <= |orgs|
      invariant editOrgs == MemberOrgs(orgs[..i], memberships)
    {
      assert orgs[..i + 1] == orgs[..i] + [orgs[i]];
      MemberOrgsSnoc(orgs[..i], orgs[i], memberships);
      if orgs[i].id in memberships {
        editOrgs := editOrgs + [orgs[i]];
      }
      i := i + 1;
    }
    assert orgs[..|orgs|] == orgs;
  }

  lemma MemberOrgsSnoc(s: seq<Organization>, o: Organization, memberships: set<OrgId>)
    ensures MemberOrgs(s + [o], memberships)
      == MemberOrgs(s, memberships) + (if o.id in memberships then [o] else [])
  {
    FilterSnoc(s, o, InOrgs(memberships));
  }

  /** The editable organizations are attached to the post and joined by the
      viewer, and every such organization is among them. */
  lemma MemberOrgsMembers(orgs: seq<Organization>, memberships: set<OrgId>)
    ensures forall o :: o in MemberOrgs(orgs, memberships) <==> o in orgs && o.id in memberships
  {
  }

  /** The edit-related context of the post page: the flag that shows the
      edit link, and the post's organizations the viewer may edit it for
      (filled only when the flag is set). */
  method EditContext(post: BlogPost, v: Viewer) returns (showEdit: bool, editOrgs: seq<Organization>)
    ensures showEdit <==> CanEdit(post, v)
    ensures !showEdit ==> editOrgs == []
    ensures showEdit ==> v.Member? && editOrgs == MemberOrgs(post.organizations, v.profile.organizations)
    ensures showEdit ==>
      forall o :: o in editOrgs <==> o in post.organizations && o.id in v.profile.organizations
  {
    showEdit := ShowEditFlag(post, v);
    editOrgs := [];
    if showEdit {
      editOrgs := EditableOrgs(post.organizations, v.profile.organizations);
      MemberOrgsMembers(post.organizations, v.profile.organizations);
    }
  }

  /** The editable organizations keep the post's order: the part chosen from
      a prefix of the post's organizations comes before the rest. */
  lemma MemberOrgsKeepOrder(a: seq<Organization>, b: seq<Organization>, memberships: set<OrgId>)
    ensures MemberOrgs(a + b, memberships) == MemberOrgs(a, memberships) + MemberOrgs(b, memberships)
  {
    FilterAppend(a, b, InOrgs(memberships));
  }

  /** The post with primary key `id`, if there is one. */
  function FindPost(posts: seq<BlogPost>, id: nat): (r: Option<BlogPost>)
    ensures r.Some? ==> r.value in posts && r.value.id == id
    ensures r.None? ==> forall p :: p in posts ==> p.id != id
    decreases |posts|
  {
    if |posts| == 0 then None
    else if posts[0].id == id then Some(posts[0])
    else
      assert posts == [posts[0]] + posts[1..];
      FindPost(posts[1..], id)
  }

  /** No two posts share a primary key. */
  predicate UniquePostIds(posts: seq<BlogPost>) {
    forall i, j :: 0 <= i < |posts| && 0 <= j < |posts| && posts[i].id == posts[j].id ==> i == j
  }

  /** `PostView.get_object`: look the post up by key and refuse it, as "not
      found", when it does not exist or `canSee` (the post's own visibility
      rule) rejects the viewer. The two refusals look the same. */
  function GetPost(posts: seq<BlogPost>, id: nat, v: Viewer, canSee: (BlogPost, Viewer) -> bool): (r: Option<BlogPost>)
    ensures r.Some? ==> r.value in posts && r.value.id == id && canSee(r.value, v)
    ensures UniquePostIds(posts) ==>
      (r.None? <==> forall p :: p in posts && p.id == id ==> !canSee(p, v))
  {
    match FindPost(posts, id)
    case None => None
    case Some(p) => if canSee(p, v) then Some(p) else None
  }
}

=== FILE: ticket_feed.dfy ===
/** The ticket feed: a viewer's own open tickets (what the page serves), or,
    when asked for all tickets, every open ticket the site's visibility rule
    lets a staff viewer see. */
module TicketFeed {

  import opened Collections
  import opened Ordering
  import opened Models

  /** `order_by("-id")`. */
  function TicketKey(t: Ticket): Key {
    Key(t.id, 0)
  }

  /** No two tickets share a primary key. */
  predicate UniqueTicketIds(tickets: seq<Ticket>) {
    forall i, j :: 0 <= i < |tickets| && 0 <= j < |tickets| && tickets[i].id == tickets[j].id ==> i == j
  }

  /** The profile opened the ticket or is assigned to it. */
  predicate Concerns(t: Ticket, who: ProfileId) {
    t.owner == who || who in t.assignees
  }

  predicate OwnOpen(t: Ticket, who: ProfileId) {
    t.isOpen && Concerns(t, who)
  }

  /** Descending `TicketKey` order is descending id order, strictly so when
      ids are unique. */
  lemma IdsDescending(r: seq<Ticket>, tickets: seq<Ticket>)
    requires SortedDesc(r, TicketKey)
    requires multiset(r) <= multiset(tickets)
    ensures forall i, j :: 0 <= i < j < |r| ==> r[i].id >= r[j].id
    ensures UniqueTicketIds(tickets) ==> forall i, j :: 0 <= i < j < |r| ==> r[i].id > r[j].id
  {
    forall i, j | 0 <= i < j < |r|
      ensures r[i].id >= r[j].id
    {
      assert Above(TicketKey(r[i]), TicketKey(r[j]));
    }
    if UniqueTicketIds(tickets) {
      assert NoDuplicates(tickets);
      NoDuplicatesOfSubMultiset(r, tickets);
      forall i, j | 0 <= i < j < |r|
        ensures r[i].id > r[j].id
      {
        assert r[i] in multiset(tickets) && r[j] in multiset(tickets);
        var k :| 0 <= k < |tickets| && tickets[k] == r[i];
        var l :| 0 <= l < |tickets| && tickets[l] == r[j];
        assert Above(TicketKey(r[i]), TicketKey(r[j]));
      }
    }
  }

  /** The "own" feed: empty for an anonymous viewer; otherwise exactly the
      open tickets the viewer opened or is assigned to, newest id first. */
  function OwnFeed(tickets: seq<Ticket>, v: Viewer): (r: seq<Ticket>)
    ensures v.Anonymous? ==> r == []
    ensures v.Member? ==> forall t :: t in r <==> t in tickets && OwnOpen(t, v.profile.id)
    ensures forall i, j :: 0 <= i < j < |r| ==> r[i].id >= r[j].id
    ensures UniqueTicketIds(tickets) ==> forall i, j :: 0 <= i < j < |r| ==> r[i].id > r[j].id
  {
    if v.Anonymous? then []
    else
      var mine := Filter(tickets, t => OwnOpen(t, v.profile.id));
      var r := SortDesc(mine, TicketKey);
      SameElements(r, mine);
      IdsDescending(r, tickets);
      r
  }

  /** Every open ticket, newest id first: what the "all" feed hands to the
      visibility rule. */
  function OpenByIdDesc(tickets: seq<Ticket>): (r: seq<Ticket>)
    ensures forall t :: t in r <==> t in tickets && t.isOpen
    ensures forall i, j :: 0 <= i < j < |r| ==> r[i].id >= r[j].id
    ensures UniqueTicketIds(tickets) ==> forall i, j :: 0 <= i < j < |r| ==> r[i].id > r[j].id
  {
    var open := Filter(tickets, (t: Ticket) => t.isOpen);
    var r := SortDesc(open, TicketKey);
    SameElements(r, open);
    IdsDescending(r, tickets);
    r
  }

  /** `TicketFeed.get_queryset(is_own)`. `visibleTickets` stands for the
      site's `filter_visible_tickets`, whose rule lives outside this view.
      `is_own` defaults to true and the list view calls `get_queryset()`
      without an argument, so the ticket feed page serves the own feed; the
      all-tickets branch is reached only by a caller passing `is_own=False`. */
  function TicketQueryset(
    tickets: seq<Ticket>, v: Viewer, isOwn: bool,
    visibleTickets: (seq<Ticket>, Viewer) -> seq<Ticket>): (r: seq<Ticket>)
    ensures isOwn && v.Anonymous? ==> r == []
    ensures !isOwn && !v.IsStaff() ==> r == []
    ensures isOwn && v.Member? ==>
      forall t :: t in r <==> t in tickets && OwnOpen(t, v.profile.id)
    ensures isOwn ==> forall i, j :: 0 <= i < j < |r| ==> r[i].id >= r[j].id
    ensures !isOwn && v.IsStaff() ==> r == visibleTickets(OpenByIdDesc(tickets), v)
  {
    if isOwn then OwnFeed(tickets, v)
    else if v.IsStaff() then visibleTickets(OpenByIdDesc(tickets), v)
    else []
  }
}
